=== FILE: README.md ===
# Counter demo front end: a Dafny model of its component logic

The repository is the front end of a Starknet "counter" demo built on
Scaffold-Stark. Its components wrap contract hooks; three of them carry small
pieces of logic of their own, and those pieces are modelled here as pure
functions over plain values:

- **EventReader** (`event_reader.dfy`) lists the contract's `CounterChanged`
  events. It names each event's `ChangeReason` from whatever shape the enum was
  serialised in (`reasonToString`). It orders the events by block number,
  newest first, and shows the first twenty unless "show all" is on. It
  annotates each row with the change of the counter, a sign and a colour. It
  chooses between loading, error, empty and list screens.
- **CounterReset** (`counter_reset.dfy`) resets the counter for a fee of
  1 STRK (10^18 base units). It compares the STRK balance and the allowance
  held by the counter contract with that fee. It builds a multicall of
  `approve` (only when the allowance is short) followed by `reset_counter`. It
  guards the click handler, keeps a processing flag across the send, and
  chooses between four screens.
- **CounterSet** (`counter_set.dfy`) lets the contract owner set the counter.
  It compares the connected address with the contract's owner as integers and
  fails closed. It derives the `set_counter` argument with `parseInt`. It
  clears the input only after a successful send, and chooses between three
  screens.

Supporting modules:

- `js_values.dfy` holds the JavaScript values the components handle (an
  optional value, a dynamically typed `Value` with objects as key maps),
  truthiness, `String(v)` and the digit rendering of integers.
- `js_numbers.dfy` holds the string conversions the components call:
  `BigInt(s)` and the integer literals `Number(s)` accepts, `parseInt(s)` and
  `Number(v)`. It proves that `BigInt` and `parseInt` read back
  `n.toString()` as `n`, and that `BigInt` reads a zero-padded hexadecimal
  address back as its integer.
- `hooks.dfy` holds the status a write hook reports and how a `sendAsync()`
  promise settles.

What the hooks return (`data`, `isLoading`, `error`, `status`, the account
address, `isConnected`, the deployed contract address) is an explicit input.
`useState` values are inputs too: `showAll`, `isProcessing`, the text field.
An async click handler is a function from its inputs and the send's outcome
(resolved, or threw) to the ordered list of effects it performs. Those effects
are: setting the processing flag, sending the calls, logging the error, and
clearing the input. The rendered screen is a datatype, one constructor per
early return.

Three behaviours of the code are easy to miss, and the model keeps them:

- Neither view disables its control when no wallet is connected. Each renders
  a "connect your wallet" notice in place of the control (`ConnectPrompt` in
  both views).
- The set button's `disabled` predicate does not test the connection, since
  the form exists only when connected. It accepts any non-empty text, so the
  argument `parseInt` derives may be NaN (`None`).
- `reasonToString` has cases beyond the bare tag, the `variant` field and the
  single key. A falsy reason gives `"?"`. An object whose only key is
  `variant`, but whose value is not a non-empty string, gives the key name
  `"variant"`. An empty object gives `"[object Object]"`. A truthy number or
  `true` gives its string form.

## Model

| member | source | states |
|---|---|---|
| EventReader.ReasonToString | packages/nextjs/components/EventReader.tsx:44-54 | A falsy reason gives "?", and a non-empty string is returned unchanged. An object with a non-empty string `variant` gives that string. An object with exactly one key gives that key. An object with several keys and no usable `variant` gives "Unknown". |
| EventReader.ReasonEncodingsAgree | packages/nextjs/components/EventReader.tsx:38-50 | Each enum variant is read back as its own name in all three encodings: the bare tag, `{variant: tag}`, and `{tag: {}}`. |
| EventReader.AllVariantsIsUnknown | packages/nextjs/components/EventReader.tsx:43-51 | An object that embeds every variant is reported as "Unknown" and is never named as any one of the variants. |
| EventReader.NumberOrNaN | packages/nextjs/components/EventReader.tsx:107-108 | A missing or null value converts to NaN. A number converts to itself, a boolean to 1 or 0, and the decimal string of an integer n to n. |
| EventReader.Delta | packages/nextjs/components/EventReader.tsx:106-112 | The delta is defined exactly when both the old and the new value convert to numbers, and then old + delta = new. |
| EventReader.DeltaSign | packages/nextjs/components/EventReader.tsx:113 | The sign is "+" exactly when the delta is defined and positive; otherwise it is empty. |
| EventReader.DeltaColorOf | packages/nextjs/components/EventReader.tsx:120-127 | The colour is none exactly when there is no delta. Otherwise it is rise, fall or unchanged exactly when the delta is positive, negative or zero. |
| EventReader.RowOf | packages/nextjs/components/EventReader.tsx:105-127 | A row keeps the event's block number and carries the normalised reason and the delta. Its sign is "+" exactly when the delta is positive, and "" otherwise. Its colour is none, rise, fall or unchanged exactly when the delta is missing, positive, negative or zero. Its colour class is "" without a delta, and "text-success", "text-warning" or "text-info" exactly when the delta is positive, negative or zero. Its caller is the event's caller when that is truthy and "0x0" otherwise, so it is never falsy. |
| EventReader.EncodedValuesGiveExactDelta | packages/nextjs/components/EventReader.tsx:106-127 | For counter values sent as numbers or as decimal strings, in any mix, the row shows exactly new − old. It is coloured rise or fall exactly when the counter went up or down. |
| EventReader.SortNewestFirst | packages/nextjs/components/EventReader.tsx:57-58 | The sorted list is a permutation of the events, with non-increasing block numbers; a missing block number counts as 0. |
| EventReader.SortedHeadIsNewest | packages/nextjs/components/EventReader.tsx:58 | The first sorted event has a block number at least that of every event. |
| EventReader.Visible | packages/nextjs/components/EventReader.tsx:59-60 | The visible list is a prefix of the sorted list. It is all of it with "show all" on, and min(20, count) events otherwise. |
| EventReader.ToggleOfferedExactlyWhenItMatters | packages/nextjs/components/EventReader.tsx:94-100 | The toggle is shown (more than 20 events) exactly when "show all" changes what is visible. |
| EventReader.RenderHistory | packages/nextjs/components/EventReader.tsx:63-103 | Priority is loading > error (showing `String(error)`) > empty > list, and the empty screen appears exactly when there are no events. The list has as many rows as are visible, in non-increasing block order, and row i shows the i-th sorted event. The count badge equals the row count, and a toggle is present exactly when there are more than 20 events. It is "show less" exactly when all are shown, and "show all (total)" exactly when they are not. |
| EventReader.ErrorString | packages/nextjs/components/EventReader.tsx:72-78 | The error alert shows a string error as is. An `Error` object's text is its message when the name is empty and its name when the message is empty. Otherwise it is the name, then ": ", then the message. |
| EventReader.Insert | packages/nextjs/components/EventReader.tsx:58 | Inserting an event adds exactly that event to the list's contents. The new head is either the inserted event or the old head. |
| EventReader.InsertKeepsNewestFirst | packages/nextjs/components/EventReader.tsx:58 | Inserting into a list ordered newest first keeps it ordered newest first. |
| CounterReset.CoversPayment | packages/nextjs/components/CounterReset.tsx:34-42 | `hasBalance` and `hasAllowance` are false for an absent amount; otherwise they hold exactly when the amount is at least 10^18. |
| CounterReset.CallPlan | packages/nextjs/components/CounterReset.tsx:45-67 | The plan is empty exactly when the counter address is unresolved. Otherwise it has one or two steps and ends with `reset_counter` with no arguments. It is `[approve(counter, 10^18), reset_counter]` when the allowance is short and `[reset_counter]` otherwise. |
| CounterReset.PlanFundsTheReset | packages/nextjs/components/CounterReset.tsx:50-57 | Under the ERC-20 `approve` rule, the steps before `reset_counter` leave the counter contract allowed at least 10^18, whatever allowance was read. The plan contains the `approve` step exactly when the allowance read was short. |
| CounterReset.HandleReset | packages/nextjs/components/CounterReset.tsx:73-84 | Nothing happens unless the user is connected, the balance covers the fee and the address is resolved. Otherwise the processing flag is raised first and lowered last. Every send carries the current non-empty plan. |
| CounterReset.ProcessingSpansTheSend | packages/nextjs/components/CounterReset.tsx:76-83 | The processing flag is up after every effect before the last one, and down once the handler ends, whether the send resolved or threw. The calls are sent exactly once. |
| CounterReset.FailureIsSwallowed | packages/nextjs/components/CounterReset.tsx:77-83 | A thrown send differs from a resolved one only by the log entry, and leaves the same processing flag. |
| CounterReset.RenderReset | packages/nextjs/components/CounterReset.tsx:86-153 | Priority is not connected > address unresolved > balance short > action card. The card appears exactly when the handler's guard holds. On the card, the button is disabled exactly when `isProcessing` or the status is pending, which is what the full `disabled` predicate reduces to there. The approve note appears exactly when the plan has two steps. The card and the insufficient-balance alert show `BalanceText` of the balance. The success badge appears exactly when the send status is success. The button reads "Reset to 0 (1 STRK)" when idle, and "Approving & Resetting..." or "Resetting..." while loading, depending on whether the allowance was short. |
| CounterReset.BalanceText | packages/nextjs/components/CounterReset.tsx:110 | The shown balance text reads back, through `BigInt`, as the balance, or as 0 when the balance is absent. |
| CounterReset.EnabledButtonSends | packages/nextjs/components/CounterReset.tsx:74-133 | A click on an enabled button sends the plan. Every screen without the button sends nothing. |
| CounterSet.IsOwner | packages/nextjs/components/CounterSet.tsx:25-45 | False when the address is absent or empty, the owner is falsy, or the owner is loading. Otherwise it holds exactly when `BigInt(address)` converts and equals `BigInt(String(owner))`. A failed conversion gives false. |
| CounterSet.OwnerRecognisedInEitherForm | packages/nextjs/components/CounterSet.tsx:28-40 | A zero-padded lower-case hex address matches the owner given either as the same integer (a BigInt) or as that address string. The zero account never matches a BigInt owner, since 0 is falsy. |
| CounterSet.OtherAccountIsNotOwner | packages/nextjs/components/CounterSet.tsx:29-40 | An address whose integer differs from the owner's never matches, whatever its zero padding. |
| CounterSet.SetCounterArg | packages/nextjs/components/CounterSet.tsx:21 | An empty input sends 0. Typing the decimal form of n sends exactly n when nothing follows it. The same holds when what follows starts with neither a digit nor, after a lone 0, an `x`. A fraction or exponent part is one such tail. Text that starts with anything but white space, a sign or a digit sends NaN. |
| CounterSet.HandleSet | packages/nextjs/components/CounterSet.tsx:47-55 | Nothing is sent when disconnected or when the input is empty; otherwise the first effect sends the derived argument. The input is cleared exactly when a send happened and resolved. |
| CounterSet.InputClearedOnlyOnSuccess | packages/nextjs/components/CounterSet.tsx:49-54 | After the handler, the input is empty if the send went out and resolved. Otherwise it is unchanged, including when the send threw. |
| CounterSet.RenderSet | packages/nextjs/components/CounterSet.tsx:57-95 | Priority is not connected > owner loading > form. On the form, the button is disabled exactly when the status is pending, the input is empty or the user is not the owner. The owner warning shows exactly for a non-owner. |
| CounterSet.EnabledButtonSendsAsOwner | packages/nextjs/components/CounterSet.tsx:95 | When the button is enabled, the address and the owner denote the same integer, and the handler sends the parsed input. |
| CounterSet.HandlerAloneDoesNotEnforceOwnership | packages/nextjs/components/CounterSet.tsx:47-48 | For a connected non-owner with a non-empty input, the form's button is disabled and warns. The handler itself would still send. |
| JsNumbers.StringToIntegerDecimal | packages/nextjs/components/CounterSet.tsx:31 | `BigInt(n.toString())` is n for every integer n. |
| JsNumbers.StringToIntegerPaddedHex | packages/nextjs/components/CounterSet.tsx:30 | `BigInt` of "0x", any number of zeros and the hex digits of n is n. |
| JsNumbers.ParseIntDecimalPrefix | packages/nextjs/components/CounterSet.tsx:21 | `parseInt` reads the decimal form of n as n, whatever follows. The exception is a tail that starts with a digit, or an `x`/`X` right after a lone `0`, which would make a `0x` prefix. So "5x" reads as 5. |

## Left out

- React itself is not modelled: JSX markup, styling classes other than the delta colour, list keys, the footer text, and the `useState`/`useMemo` machinery. State values are inputs, and re-rendering is calling the render function again.
- The Scaffold-Stark and starknet-react hooks are foreign code and are not modelled: contract reads and writes, multicall batching and its atomicity, event watching, deployed-contract lookup and wallet sessions. Their outputs are inputs.
- The STRK token and the counter contract are not modelled. The one exception is the ERC-20 rule that `approve` sets the allowance, which `PlanFundsTheReset` relies on to state what the plan achieves.
- JavaScript numbers are integers here. Fractions, exponents, `Infinity`, float rounding and the exponent notation of `String(n)` at 10^21 and above are not modelled. `Number("1.5")` in particular is NaN in the model.
- `JsNumbers.IsJsWhitespace` covers the ASCII white space, U+00A0, U+FEFF, U+2028 and U+2029. The other Unicode space separators are not modelled.
- A reason that is an array is not modelled (JavaScript would take its indices as keys), and neither are properties inherited through prototypes. `Obj` holds own keys only, so `String(v)` of an object is always `"[object Object]"`: an inherited or own `toString` is not modelled for reasons or counter values.
- The history hook's `error` is modelled as absent, a string, or an `Error` object with a name and a message (`EventReader.HookError`). Other thrown values are not modelled, and neither is a `toString` overridden on an error.
- Timestamp formatting, block-explorer links and the `Address` component are presentation only. Console logging is reduced to a `LogError` effect.
- `CounterIncrement.tsx`, `CounterDecrease.tsx`, `CounterDisplay.tsx` and `app/page.tsx` are not part of this model. They are thin hook wrappers and layout.
- The order of events with equal block numbers is not modelled, since the code makes no promise about it. `SortNewestFirst` is an insertion sort whose contract leaves ties unconstrained.
- Concurrency is not modelled. Each handler run is one trace: a second click during a send, and state updates after unmount, are left out.

=== FILE: counter_reset.dfy ===
/**
 The paid reset (`CounterReset`): resetting the counter costs one STRK token.
 The component checks the caller's STRK balance and the allowance granted to
 the counter contract against that price, builds a one- or two-step
 multicall (an `approve` first when the allowance is short, then
 `reset_counter`), guards the click handler, and picks one of four screens.
 */
module CounterReset {
  import opened JsValues
  import opened JsNumbers
  import opened Hooks

  /** The price of a reset: 1 STRK with 18 decimals */
  const PaymentAmount: int := 1_000_000_000_000_000_000

  /** The amount the read hook returns is truthy: present and non-zero */
  predicate AmountTruthy(amount: Option<int>) {
    amount.Some? && amount.value != 0
  }

  /** `hasBalance` and `hasAllowance`: the amount is known and covers the price */
  function CoversPayment(amount: Option<int>): (ok: bool)
    ensures ok <==> amount.Some? && amount.value >= PaymentAmount
  {
    if !AmountTruthy(amount) then false else amount.value >= PaymentAmount
  }

  /** An argument of a contract call */
  datatype Arg = Address(address: string) | Amount(value: int)

  /** The deployed contracts the component calls, by their names in the deployment record */
  datatype Contract = Strk | CounterContract

  /** The entry points the component calls */
  datatype Entrypoint = Approve | ResetCounter

  /** One step of a multicall: contract, entry point, arguments */
  datatype Call = Call(contract: Contract, entrypoint: Entrypoint, args: seq<Arg>)

  /** `approve(counter, 1 STRK)` on the STRK token */
  function ApproveCall(spender: string): Call {
    Call(Strk, Approve, [Address(spender), Amount(PaymentAmount)])
  }

  const ResetCall: Call := Call(CounterContract, ResetCounter, [])

  /** The multicall the reset button submits */
  function CallPlan(counter: Option<string>, hasAllowance: bool): (plan: seq<Call>)
    ensures plan == [] <==> !PresentText(counter)
    ensures PresentText(counter) ==> 1 <= |plan| <= 2 && plan[|plan| - 1] == ResetCall
    ensures PresentText(counter) && !hasAllowance ==> plan == [ApproveCall(counter.value), ResetCall]
    ensures PresentText(counter) && hasAllowance ==> plan == [ResetCall]
  {
    if !PresentText(counter) then []
    else
      var approve := if !hasAllowance then [ApproveCall(counter.value)] else [];
      approve + [ResetCall]
  }

  /**
   The allowance the counter contract holds after the given calls, under the
   ERC-20 rule that `approve(spender, amount)` sets the spender's allowance to
   `amount`; other calls leave it alone.
   */
  function AllowanceAfter(allowance: int, spender: string, calls: seq<Call>): int
    decreases |calls|
  {
    if calls == [] then allowance
    else
      var c := calls[|calls| - 1];
      var before := AllowanceAfter(allowance, spender, calls[..|calls| - 1]);
      if c.contract == Strk && c.entrypoint == Approve && |c.args| == 2
         && c.args[0] == Address(spender) && c.args[1].Amount?
      then c.args[1].value
      else before
  }

  /**
   Whatever the allowance read back, by the time `reset_counter` runs the
   steps before it have left the counter contract allowed to take the price,
   and an `approve` step is there only when the allowance read back fell short.
   */
  lemma PlanFundsTheReset(counter: Option<string>, allowance: Option<int>)
    requires PresentText(counter)
    ensures var plan := CallPlan(counter, CoversPayment(allowance));
      && AllowanceAfter(allowance.GetOr(0), counter.value, plan[..|plan| - 1]) >= PaymentAmount
      && (ApproveCall(counter.value) in plan <==> !CoversPayment(allowance))
  {
    if !CoversPayment(allowance) {
      ShortPlanApproves(counter, allowance);
    } else {
      CoveredPlanOnlyResets(counter, allowance);
    }
  }

  lemma ShortPlanApproves(counter: Option<string>, allowance: Option<int>)
    requires PresentText(counter) && !CoversPayment(allowance)
    ensures var plan := CallPlan(counter, false);
      && AllowanceAfter(allowance.GetOr(0), counter.value, plan[..|plan| - 1]) >= PaymentAmount
      && ApproveCall(counter.value) in plan
  {
    var plan := CallPlan(counter, false);
    assert plan[..|plan| - 1] == [ApproveCall(counter.value)];
    ApproveSetsAllowance(allowance.GetOr(0), counter.value);
    assert plan[0] == ApproveCall(counter.value);
  }

  lemma CoveredPlanOnlyResets(counter: Option<string>, allowance: Option<int>)
    requires PresentText(counter) && CoversPayment(allowance)
    ensures var plan := CallPlan(counter, true);
      && AllowanceAfter(allowance.GetOr(0), counter.value, plan[..|plan| - 1]) >= PaymentAmount
      && ApproveCall(counter.value) !in plan
  {
    PlanPrefixKeepsAllowance(counter, allowance.GetOr(0));
    assert ApproveCall(counter.value) !in CallPlan(counter, true);
  }

  /** Without an `approve` step the allowance read back is the one `reset_counter` sees */
  lemma PlanPrefixKeepsAllowance(counter: Option<string>, allowance: int)
    requires PresentText(counter)
    ensures var plan := CallPlan(counter, true); AllowanceAfter(allowance, counter.value, plan[..|plan| - 1]) == allowance
  {
    var plan := CallPlan(counter, true);
    assert plan[..|plan| - 1] == [];
  }

  /** A lone `approve` of the price to the spender leaves it allowed exactly the price */
  lemma ApproveSetsAllowance(allowance: int, spender: string)
    ensures AllowanceAfter(allowance, spender, [ApproveCall(spender)]) == PaymentAmount
  {
    assert [ApproveCall(spender)][..0] == [];
  }

  /** The inputs the component reads from its hooks and from the session */
  datatype ResetInputs = ResetInputs(
    isConnected: bool,
    counter: Option<string>,
    balance: Option<int>,
    allowance: Option<int>,
    status: Status)

  /** What the click handler does, in order */
  datatype ResetEffect =
    | SetProcessing(on: bool)
    | SendCalls(calls: seq<Call>)
    | LogError(message: string)

  /** The guard of `handleReset` */
  predicate MaySend(inp: ResetInputs) {
    inp.isConnected && CoversPayment(inp.balance) && PresentText(inp.counter)
  }

  /**
   `handleReset` for a given outcome of the send: the processing flag is
   raised, the plan is sent, a failure is only logged, and the flag is lowered
   in the `finally` block.
   */
  function HandleReset(inp: ResetInputs, outcome: SendOutcome): (trace: seq<ResetEffect>)
    ensures trace == [] <==> !MaySend(inp)
    ensures trace != [] ==> trace[0] == SetProcessing(true) && trace[|trace| - 1] == SetProcessing(false)
    ensures forall i :: 0 <= i < |trace| && trace[i].SendCalls? ==>
      trace[i].calls == CallPlan(inp.counter, CoversPayment(inp.allowance)) && trace[i].calls != []
  {
    if !MaySend(inp) then []
    else
      var failure := if outcome.Threw? then [LogError(outcome.message)] else [];
      [SetProcessing(true), SendCalls(CallPlan(inp.counter, CoversPayment(inp.allowance)))]
        + failure + [SetProcessing(false)]
  }

  /** The processing flag after a sequence of effects, starting from `flag` */
  function ProcessingAfter(flag: bool, trace: seq<ResetEffect>): bool
    decreases |trace|
  {
    if trace == [] then flag
    else if trace[|trace| - 1].SetProcessing? then trace[|trace| - 1].on
    else ProcessingAfter(flag, trace[..|trace| - 1])
  }

  /**
   `isProcessing` is set for the whole send, including a failed one, and is
   clear once the handler is done, whether the send resolved or threw.
   */
  lemma ProcessingSpansTheSend(inp: ResetInputs, outcome: SendOutcome, flag: bool)
    requires MaySend(inp)
    ensures var trace := HandleReset(inp, outcome);
      && (forall k :: 1 <= k < |trace| ==> ProcessingAfter(flag, trace[..k]))
      && !ProcessingAfter(flag, trace)
      && |set i | 0 <= i < |trace| && trace[i].SendCalls?| == 1
  {
    FlagUpUntilTheEnd(inp, outcome, flag);
    var trace := HandleReset(inp, outcome);
    assert (set i | 0 <= i < |trace| && trace[i].SendCalls?) == {1};
  }

  lemma FlagUpUntilTheEnd(inp: ResetInputs, outcome: SendOutcome, flag: bool)
    requires MaySend(inp)
    ensures var trace := HandleReset(inp, outcome);
      forall k :: 1 <= k < |trace| ==> ProcessingAfter(flag, trace[..k])
  {
    var trace := HandleReset(inp, outcome);
    assert forall i :: 0 < i < |trace| - 1 ==> !trace[i].SetProcessing?;
    forall k | 1 <= k < |trace| ensures ProcessingAfter(flag, trace[..k]) {
      RaisedStaysRaised(flag, trace[..k]);
    }
  }

  /** Once raised, the flag stays up until an effect lowers it */
  lemma {:induction false} RaisedStaysRaised(flag: bool, trace: seq<ResetEffect>)
    requires trace != [] && trace[0] == SetProcessing(true)
    requires forall i :: 0 < i < |trace| ==> !trace[i].SetProcessing?
    ensures ProcessingAfter(flag, trace)
    decreases |trace|
  {
    if |trace| > 1 {
      RaisedStaysRaised(flag, trace[..|trace| - 1]);
    } else {
      assert trace[..0] == [];
    }
  }

  /** A failed send is swallowed: apart from the log line, it leaves the same trace as a successful one */
  lemma FailureIsSwallowed(inp: ResetInputs, message: string)
    requires MaySend(inp)
    ensures var ok := HandleReset(inp, Resolved);
            var failed := HandleReset(inp, Threw(message));
      && failed == ok[..2] + [LogError(message)] + ok[2..]
      && ProcessingAfter(false, failed) == ProcessingAfter(false, ok)
  {
  }

  /** `isLoading`: the local flag or the hook's pending status */
  predicate IsLoading(isProcessing: bool, status: Status) {
    isProcessing || status == Pending
  }

  /** The button's `disabled` attribute */
  predicate ButtonDisabled(inp: ResetInputs, isProcessing: bool) {
    IsLoading(isProcessing, inp.status) || !CoversPayment(inp.balance) || !PresentText(inp.counter)
  }

  /** `balance?.toString() || "0"`: the shown balance reads back as the balance, or 0 when absent */
  function BalanceText(balance: Option<int>): (text: string)
    ensures StringToInteger(text) == Some(balance.GetOr(0))
  {
    StringToIntegerDecimal(balance.GetOr(0));
    if balance.Some? then IntToDecimal(balance.value) else "0"
  }

  /** The four screens of the reset component */
  datatype ResetView =
    | ConnectPrompt
    | ContractLoading
    | InsufficientBalance(balance: string)
    | ActionCard(balance: string, approvalNote: bool, disabled: bool, caption: string, successBadge: bool)

  /** The button text: what is in flight, or the idle call to action */
  function ButtonLabel(loading: bool, hasAllowance: bool): string {
    if !loading then "Reset to 0 (1 STRK)"
    else if !hasAllowance then "Approving & Resetting..."
    else "Resetting..."
  }

  /** The rendered view: not connected, then contract unresolved, then balance short, then the card */
  function RenderReset(inp: ResetInputs, isProcessing: bool): (view: ResetView)
    ensures !inp.isConnected <==> view == ConnectPrompt
    ensures inp.isConnected && !PresentText(inp.counter) <==> view == ContractLoading
    ensures view.InsufficientBalance? <==> inp.isConnected && PresentText(inp.counter) && !CoversPayment(inp.balance)
    ensures view.ActionCard? <==> MaySend(inp)
    ensures view.ActionCard? ==>
      && view.disabled == IsLoading(isProcessing, inp.status)
      && view.disabled == ButtonDisabled(inp, isProcessing)
      && (view.approvalNote <==> |CallPlan(inp.counter, CoversPayment(inp.allowance))| == 2)
      && view.balance == BalanceText(inp.balance)
      && (view.successBadge <==> inp.status == Success)
      && (!IsLoading(isProcessing, inp.status) ==> view.caption == "Reset to 0 (1 STRK)")
      && (IsLoading(isProcessing, inp.status) && !CoversPayment(inp.allowance) ==> view.caption == "Approving & Resetting...")
      && (IsLoading(isProcessing, inp.status) && CoversPayment(inp.allowance) ==> view.caption == "Resetting...")
    ensures view.InsufficientBalance? ==> view.balance == BalanceText(inp.balance)
  {
    var hasAllowance := CoversPayment(inp.allowance);
    var loading := IsLoading(isProcessing, inp.status);
    if !inp.isConnected then ConnectPrompt
    else if !PresentText(inp.counter) then ContractLoading
    else if !CoversPayment(inp.balance) then InsufficientBalance(BalanceText(inp.balance))
    else ActionCard(BalanceText(inp.balance), !hasAllowance, ButtonDisabled(inp, isProcessing),
                    ButtonLabel(loading, hasAllowance), inp.status == Success)
  }

  /**
   A click on an enabled button sends the plan; every screen without the
   button (not connected, contract unresolved, balance short) sends nothing.
   */
  lemma EnabledButtonSends(inp: ResetInputs, isProcessing: bool, outcome: SendOutcome)
    ensures var view := RenderReset(inp, isProcessing);
      && (view.ActionCard? && !view.disabled ==>
            SendCalls(CallPlan(inp.counter, CoversPayment(inp.allowance))) in HandleReset(inp, outcome))
      && (!view.ActionCard? ==> HandleReset(inp, outcome) == [])
  {
    var view := RenderReset(inp, isProcessing);
    if view.ActionCard? {
      assert MaySend(inp);
      SendIsSecond(inp, outcome);
    } else {
      assert !MaySend(inp);
    }
  }

  /** A permitted click's second effect sends the plan */
  lemma SendIsSecond(inp: ResetInputs, outcome: SendOutcome)
    requires MaySend(inp)
    ensures SendCalls(CallPlan(inp.counter, CoversPayment(inp.allowance))) in HandleReset(inp, outcome)
  {
    assert HandleReset(inp, outcome)[1] == SendCalls(CallPlan(inp.counter, CoversPayment(inp.allowance)));
  }
}

=== FILE: counter_set.dfy ===
/**
 The owner-only set (`CounterSet`): the component reads the counter
 contract's owner, compares it with the connected account as integers
 (failing closed), derives the `set_counter` argument from the text input,
 clears the input only after a successful send, and picks one of three
 screens.
 */
module CounterSet {
  import opened JsValues
  import opened JsNumbers
  import opened Hooks

  /**
   `isOwner`: both the account address and the owner are present and the
   owner is not loading, and `BigInt(address)` equals
   `BigInt(owner.toString())`; a conversion that throws makes it false.
   */
  function IsOwner(address: Option<string>, owner: Value, ownerLoading: bool): (r: bool)
    ensures !PresentText(address) || !Truthy(owner) || ownerLoading ==> !r
    ensures r <==>
      && PresentText(address) && Truthy(owner) && !ownerLoading
      && StringToInteger(address.value).Some?
      && StringToInteger(address.value) == StringToInteger(ToJsString(owner))
  {
    if !PresentText(address) || !Truthy(owner) || ownerLoading then false
    else
      match (StringToInteger(address.value), StringToInteger(ToJsString(owner)))
      case (Some(a), Some(o)) => a == o
      case _ => false
  }

  /** A wallet address as the session reports it: `0x`, some zero padding, lower-case hex digits */
  function PaddedAddress(padding: nat, account: nat): string {
    "0x" + Zeros(padding) + NatToDigits(account, 16)
  }

  /**
   The owner read back as a BigInt is recognised against the account's
   zero-padded hexadecimal address, and so is the owner read back as that
   address string; the zero account is never the owner, because a zero owner
   is falsy.
   */
  lemma OwnerRecognisedInEitherForm(padding: nat, account: nat, ownerAsString: bool)
    ensures var owner := if ownerAsString then Str(PaddedAddress(padding, account)) else Num(account);
      IsOwner(Some(PaddedAddress(padding, account)), owner, false) <==> (account != 0 || ownerAsString)
  {
    var address := PaddedAddress(padding, account);
    StringToIntegerPaddedHex(padding, account);
    assert address[0] == '0';
    if ownerAsString {
      assert ToJsString(Str(address)) == address;
    } else {
      StringToIntegerDecimal(account);
      assert ToJsString(Num(account)) == IntToDecimal(account);
    }
  }

  /** An account whose number differs from the owner's is never taken for the owner, whatever its padding */
  lemma OtherAccountIsNotOwner(padding: nat, account: nat, owner: int, ownerLoading: bool)
    requires account != owner
    ensures !IsOwner(Some(PaddedAddress(padding, account)), Num(owner), ownerLoading)
  {
    StringToIntegerPaddedHex(padding, account);
    StringToIntegerDecimal(owner);
  }

  /**
   The `set_counter` argument: `parseInt(newValue)` for a non-empty input,
   else 0. Typing the decimal form of `n`, possibly followed by a fraction or
   an exponent, sends `n`, because `parseInt` stops at the first character
   that is not a digit; text that starts with anything but white space, a
   sign or a digit sends NaN (`None`).
   */
  function SetCounterArg(newValue: string): (arg: Option<int>)
    ensures newValue == "" ==> arg == Some(0)
    ensures newValue != "" ==> arg == ParseInt(newValue)
    ensures forall n, rest :: newValue == IntToDecimal(n) + rest && EndsDecimal(IntToDecimal(n), rest) ==> arg == Some(n)
    ensures newValue != "" && !IsJsWhitespace(newValue[0]) && !IsDigit(newValue[0], 10)
              && newValue[0] != '-' && newValue[0] != '+'
            ==> arg.None?
  {
    DecimalInputsParse(newValue);
    if newValue != "" then
      NoDigitNoNumber(newValue);
      ParseInt(newValue)
    else Some(0)
  }

  lemma DecimalInputsParse(s: string)
    ensures forall n, rest :: s == IntToDecimal(n) + rest && EndsDecimal(IntToDecimal(n), rest) ==> ParseInt(s) == Some(n)
  {
    forall n, rest | s == IntToDecimal(n) + rest && EndsDecimal(IntToDecimal(n), rest) ensures ParseInt(s) == Some(n) {
      ParseIntDecimalPrefix(n, rest);
    }
  }

  /** What the click handler does, in order */
  datatype SetEffect =
    | SendSet(arg: Option<int>)
    | ClearInput
    | LogError(message: string)

  /** `handleSet` for a given outcome of the send; it does not consult `isOwner` */
  function HandleSet(isConnected: bool, newValue: string, outcome: SendOutcome): (trace: seq<SetEffect>)
    ensures trace == [] <==> !isConnected || newValue == ""
    ensures trace != [] ==> trace[0] == SendSet(SetCounterArg(newValue))
    ensures ClearInput in trace <==> trace != [] && outcome.Resolved?
  {
    if !isConnected || newValue == "" then []
    else
      [SendSet(SetCounterArg(newValue))]
        + (if outcome.Resolved? then [ClearInput] else [LogError(outcome.message)])
  }

  /** The input text once the handler is done */
  function InputAfter(newValue: string, trace: seq<SetEffect>): string {
    if ClearInput in trace then "" else newValue
  }

  /** The input is cleared exactly when a send went out and resolved; a thrown send keeps it */
  lemma InputClearedOnlyOnSuccess(isConnected: bool, newValue: string, outcome: SendOutcome)
    ensures InputAfter(newValue, HandleSet(isConnected, newValue, outcome))
      == if isConnected && newValue != "" && outcome.Resolved? then "" else newValue
  {
  }

  /** The inputs the component reads from its hooks and from the session */
  datatype SetInputs = SetInputs(
    isConnected: bool,
    address: Option<string>,
    owner: Value,
    ownerLoading: bool,
    status: Status)

  /** The button's `disabled` attribute */
  predicate ButtonDisabled(inp: SetInputs, newValue: string) {
    inp.status == Pending || newValue == "" || !IsOwner(inp.address, inp.owner, inp.ownerLoading)
  }

  /** The three screens of the set component */
  datatype SetView =
    | ConnectPrompt
    | CheckingOwner
    | SetForm(disabled: bool, processing: bool, ownerWarning: bool)

  /** The rendered view: not connected, then owner loading, then the form */
  function RenderSet(inp: SetInputs, newValue: string): (view: SetView)
    ensures !inp.isConnected <==> view == ConnectPrompt
    ensures inp.isConnected && inp.ownerLoading <==> view == CheckingOwner
    ensures view.SetForm? ==>
      && (view.ownerWarning <==> !IsOwner(inp.address, inp.owner, false))
      && (view.disabled <==> inp.status == Pending || newValue == "" || !IsOwner(inp.address, inp.owner, false))
      && (view.processing <==> inp.status == Pending)
  {
    if !inp.isConnected then ConnectPrompt
    else if inp.ownerLoading then CheckingOwner
    else
      var owner := IsOwner(inp.address, inp.owner, inp.ownerLoading);
      SetForm(ButtonDisabled(inp, newValue), inp.status == Pending, !owner)
  }

  /**
   A click on an enabled button comes from the owner: the account and the
   owner denote the same integer, and the handler sends the parsed input.
   */
  lemma EnabledButtonSendsAsOwner(inp: SetInputs, newValue: string, outcome: SendOutcome)
    requires RenderSet(inp, newValue).SetForm? && !RenderSet(inp, newValue).disabled
    ensures inp.address.Some? && StringToInteger(inp.address.value).Some?
    ensures StringToInteger(inp.address.value) == StringToInteger(ToJsString(inp.owner))
    ensures HandleSet(inp.isConnected, newValue, outcome)[0] == SendSet(SetCounterArg(newValue))
  {
  }

  /**
   Ownership is enforced by the button alone: a connected non-owner whose
   click reached the handler with a non-empty input would still send.
   */
  lemma HandlerAloneDoesNotEnforceOwnership(inp: SetInputs, newValue: string, outcome: SendOutcome)
    requires inp.isConnected && newValue != "" && !IsOwner(inp.address, inp.owner, inp.ownerLoading)
    ensures RenderSet(inp, newValue).SetForm? ==> RenderSet(inp, newValue).disabled && RenderSet(inp, newValue).ownerWarning
    ensures SendSet(SetCounterArg(newValue)) in HandleSet(inp.isConnected, newValue, outcome)
  {
  }
}

=== FILE: event_reader.dfy ===
/**
 The event-history view (`EventReader`): it takes the `CounterChanged` events the
 history hook returns, names each event's change reason, orders the events
 newest block first, shows the first twenty unless "show all" is on, annotates
 each row with the change of the counter, and picks one of four screens.
 */
module EventReader {
  import opened JsValues
  import opened JsNumbers

  /** The variants of the counter contract's `ChangeReason` enum */
  datatype ChangeReason = Increase | Decrease | Reset | Set

  function ReasonName(r: ChangeReason): string {
    match r
    case Increase => "Increase"
    case Decrease => "Decrease"
    case Reset => "Reset"
    case Set => "Set"
  }

  /** A serialised enum sent as its bare tag, `"Increase"` */
  function AsTag(r: ChangeReason): Value {
    Str(ReasonName(r))
  }

  /** A serialised enum sent as an object naming its variant, `{ variant: "Increase" }` */
  function AsVariantField(r: ChangeReason): Value {
    Obj(map["variant" := Str(ReasonName(r))])
  }

  /** A serialised enum sent as a single-key object, `{ Increase: {} }` */
  function AsSingleKey(r: ChangeReason): Value {
    Obj(map[ReasonName(r) := Obj(map[])])
  }

  /** A serialised enum that embeds every variant: the active one cannot be told */
  const AllVariants: Value :=
    Obj(map["Increase" := Obj(map[]), "Decrease" := Obj(map[]), "Reset" := Obj(map[]), "Set" := Obj(map[])])

  /** The object has a `variant` field holding a non-empty string */
  predicate HasVariantTag(fields: map<string, Value>) {
    "variant" in fields && fields["variant"].Str? && fields["variant"].s != ""
  }

  lemma SingleKeyExists(m: map<string, Value>)
    requires |m| == 1
    ensures exists k :: m.Keys == {k}
  {
    var k :| k in m;
    assert |m.Keys - {k}| == 0;
    assert m.Keys == {k};
  }

  /** The key of a one-key object, `Object.keys(r)[0]` */
  function OnlyKey(m: map<string, Value>): (k: string)
    requires |m| == 1
    ensures m.Keys == {k}
  {
    SingleKeyExists(m);
    var k :| m.Keys == {k}; k
  }

  /** `reasonToString`: the tag shown in an event's badge */
  function ReasonToString(r: Value): (tag: string)
    ensures !Truthy(r) ==> tag == "?"
    ensures Truthy(r) && r.Str? ==> tag == r.s
    ensures r.Obj? && HasVariantTag(r.fields) ==> tag == r.fields["variant"].s
    ensures r.Obj? && !HasVariantTag(r.fields) && |r.fields| == 1 ==> r.fields.Keys == {tag}
    ensures r.Obj? && !HasVariantTag(r.fields) && |r.fields| > 1 ==> tag == "Unknown"
  {
    if !Truthy(r) then "?"
    else if r.Str? then r.s
    else if r.Obj? && HasVariantTag(r.fields) then r.fields["variant"].s
    else if r.Obj? && |r.fields| == 1 then OnlyKey(r.fields)
    else if r.Obj? && |r.fields| > 1 then "Unknown"
    else ToJsString(r)
  }

  /** Each of the three encodings an enum value may arrive in is read back as the variant's name */
  lemma ReasonEncodingsAgree(r: ChangeReason)
    ensures ReasonToString(AsTag(r)) == ReasonName(r)
    ensures ReasonToString(AsVariantField(r)) == ReasonName(r)
    ensures ReasonToString(AsSingleKey(r)) == ReasonName(r)
  {
    var m := map[ReasonName(r) := Obj(map[])];
    assert m.Keys == {ReasonName(r)};
    assert "variant" !in m;
  }

  /** An object carrying every variant is reported as "Unknown", never as one of its keys */
  lemma AllVariantsIsUnknown()
    ensures ReasonToString(AllVariants) == "Unknown"
    ensures forall r: ChangeReason :: ReasonToString(AllVariants) != ReasonName(r)
  {
    var m := AllVariants.fields;
    assert "Increase" in m && "Decrease" in m;
    assert {"Increase", "Decrease"} <= m.Keys;
    assert |m| > 1 by {
      assert |m.Keys - {"Increase"}| == |m.Keys| - 1;
      assert "Decrease" in m.Keys - {"Increase"};
    }
  }

  /** The event fields the view reads; every one may be missing (`Undefined`) */
  datatype EventArgs = EventArgs(caller: Value, oldValue: Value, newValue: Value, reason: Value)

  /** One history entry: decoded arguments under two names, and the block it was emitted in */
  datatype HistoryItem = HistoryItem(parsedArgs: Option<EventArgs>, args: Option<EventArgs>, blockNumber: Option<int>)

  const NoArgs := EventArgs(Undefined, Undefined, Undefined, Undefined)

  /** `ev.parsedArgs || ev.args || {}` */
  function ArgsOf(ev: HistoryItem): EventArgs {
    if ev.parsedArgs.Some? then ev.parsedArgs.value
    else if ev.args.Some? then ev.args.value
    else NoArgs
  }

  /**
   `Number(v ?? NaN)`; `None` is NaN. Numbers and booleans convert directly,
   and a counter value sent as its decimal string converts to that value.
   */
  function NumberOrNaN(v: Value): (r: Option<int>)
    ensures v.Undefined? || v.Null? ==> r.None?
    ensures v.Num? ==> r == Some(v.n)
    ensures v.Bool? ==> r == Some(if v.b then 1 else 0)
    ensures forall n :: v == Str(IntToDecimal(n)) ==> r == Some(n)
  {
    DecimalStringsConvert(v);
    if v.Undefined? || v.Null? then None else ToNumber(v)
  }

  /** `Number` reads back every decimal string that is the rendering of an integer */
  lemma DecimalStringsConvert(v: Value)
    ensures forall n :: v == Str(IntToDecimal(n)) ==> ToNumber(v) == Some(n)
  {
    forall n | v == Str(IntToDecimal(n)) ensures ToNumber(v) == Some(n) {
      StringToIntegerDecimal(n);
    }
  }

  /** The change of the counter an event records, when both of its values are numbers */
  function Delta(args: EventArgs): (d: Option<int>)
    ensures d.Some? <==> NumberOrNaN(args.oldValue).Some? && NumberOrNaN(args.newValue).Some?
    ensures d.Some? ==> NumberOrNaN(args.oldValue).value + d.value == NumberOrNaN(args.newValue).value
  {
    match (NumberOrNaN(args.oldValue), NumberOrNaN(args.newValue))
    case (Some(o), Some(n)) => Some(n - o)
    case _ => None
  }

  /** The sign printed before a delta: `+` for a rise; a fall carries its own minus */
  function DeltaSign(d: Option<int>): (sign: string)
    ensures sign == "+" <==> d.Some? && d.value > 0
    ensures sign == "" || sign == "+"
  {
    if d.None? then "" else if d.value > 0 then "+" else ""
  }

  /** The colour of a row's values: none without a delta, else by the delta's sign */
  datatype DeltaColor = NoColor | Rise | Fall | Unchanged

  /** The text class each colour is rendered with */
  function ColorClass(c: DeltaColor): string {
    match c
    case NoColor => ""
    case Rise => "text-success"
    case Fall => "text-warning"
    case Unchanged => "text-info"
  }

  /** `deltaColor` */
  function DeltaColorOf(d: Option<int>): (c: DeltaColor)
    ensures c == NoColor <==> d.None?
    ensures c == Rise <==> d.Some? && d.value > 0
    ensures c == Fall <==> d.Some? && d.value < 0
    ensures c == Unchanged <==> d.Some? && d.value == 0
  {
    if d.None? then NoColor
    else if d.value > 0 then Rise
    else if d.value < 0 then Fall
    else Unchanged
  }

  /** What one list row shows */
  datatype Row = Row(
    blockNumber: Option<int>,
    delta: Option<int>,
    sign: string,
    color: DeltaColor,
    colorClass: string,
    reason: string,
    caller: Value)

  /** The per-item derivation of the list: arguments, delta, sign, colour, reason, caller */
  function RowOf(ev: HistoryItem): (row: Row)
    ensures row.blockNumber == ev.blockNumber
    ensures row.reason == ReasonToString(ArgsOf(ev).reason)
    ensures row.delta == Delta(ArgsOf(ev))
    ensures row.sign == "+" <==> row.color == Rise
    ensures row.sign == DeltaSign(row.delta) && row.color == DeltaColorOf(row.delta)
    ensures row.color == Rise <==> row.delta.Some? && row.delta.value > 0
    ensures row.color == Fall <==> row.delta.Some? && row.delta.value < 0
    ensures row.color == NoColor <==> row.delta.None?
    ensures row.colorClass == "" <==> row.delta.None?
    ensures row.colorClass == "text-success" <==> row.delta.Some? && row.delta.value > 0
    ensures row.colorClass == "text-warning" <==> row.delta.Some? && row.delta.value < 0
    ensures row.colorClass == "text-info" <==> row.delta.Some? && row.delta.value == 0
    ensures Truthy(row.caller)
    ensures Truthy(ArgsOf(ev).caller) ==> row.caller == ArgsOf(ev).caller
    ensures !Truthy(ArgsOf(ev).caller) ==> row.caller == Str("0x0")
  {
    var args := ArgsOf(ev);
    var d := Delta(args);
    var color := DeltaColorOf(d);
    Row(ev.blockNumber, d, DeltaSign(d), color, ColorClass(color), ReasonToString(args.reason),
        if Truthy(args.caller) then args.caller else Str("0x0"))
  }

  /** The encodings a counter value may arrive in: a number, or its decimal string */
  function Encode(v: int, asString: bool): Value {
    if asString then Str(IntToDecimal(v)) else Num(v)
  }

  /**
   For counter values sent either as numbers or as decimal strings, the row
   shows the exact change, and the colour says whether the counter rose, fell
   or stayed.
   */
  lemma EncodedValuesGiveExactDelta(oldV: int, newV: int, oldAsString: bool, newAsString: bool, reason: Value)
    ensures var row := RowOf(HistoryItem(Some(EventArgs(Undefined, Encode(oldV, oldAsString), Encode(newV, newAsString), reason)), None, None));
      && row.delta == Some(newV - oldV)
      && (row.color == Rise <==> newV > oldV)
      && (row.color == Fall <==> newV < oldV)
  {
    var args := EventArgs(Undefined, Encode(oldV, oldAsString), Encode(newV, newAsString), reason);
    assert NumberOrNaN(args.oldValue) == Some(oldV);
    assert NumberOrNaN(args.newValue) == Some(newV);
    assert Delta(args) == Some(newV - oldV);
  }

  /** `log?.block_number || 0`: the sort key, a missing block number counting as 0 */
  function BlockKey(ev: HistoryItem): int {
    ev.blockNumber.GetOr(0)
  }

  ghost predicate NewestFirst(s: seq<HistoryItem>) {
    forall i, j :: 0 <= i < j < |s| ==> BlockKey(s[i]) >= BlockKey(s[j])
  }

  /** Places `ev` before the first event no newer than it */
  function Insert(ev: HistoryItem, s: seq<HistoryItem>): (r: seq<HistoryItem>)
    ensures multiset(r) == multiset(s) + multiset{ev} && |r| == |s| + 1
    ensures r[0] == ev || (s != [] && r[0] == s[0])
  {
    if s == [] || BlockKey(ev) >= BlockKey(s[0]) then [ev] + s
    else
      var rest := Insert(ev, s[1..]);
      assert s == [s[0]] + s[1..];
      [s[0]] + rest
  }

  /** Inserting into a newest-first list keeps it newest first */
  lemma {:induction false} InsertKeepsNewestFirst(ev: HistoryItem, s: seq<HistoryItem>)
    requires NewestFirst(s)
    ensures NewestFirst(Insert(ev, s))
  {
    if s != [] && BlockKey(ev) < BlockKey(s[0]) {
      InsertKeepsNewestFirst(ev, s[1..]);
    }
  }

  /**
   `[...events].sort((a, b) => key(b) - key(a))`: a copy of the events ordered
   by block number, newest first. Ties between equal block numbers may come
   out in any order.
   */
  function SortNewestFirst(s: seq<HistoryItem>): (r: seq<HistoryItem>)
    ensures NewestFirst(r)
    ensures multiset(r) == multiset(s) && |r| == |s|
  {
    if s == [] then []
    else
      assert s == [s[0]] + s[1..];
      var rest := SortNewestFirst(s[1..]);
      InsertKeepsNewestFirst(s[0], rest);
      Insert(s[0], rest)
  }

  /** The first event shown carries the highest block number of all events */
  lemma SortedHeadIsNewest(s: seq<HistoryItem>, ev: HistoryItem)
    requires ev in s
    ensures var r := SortNewestFirst(s); r != [] && BlockKey(r[0]) >= BlockKey(ev)
  {
    var r := SortNewestFirst(s);
    assert ev in multiset(s);
    assert ev in multiset(r);
    var j :| 0 <= j < |r| && r[j] == ev;
    if j > 0 {
      assert BlockKey(r[0]) >= BlockKey(r[j]);
    }
  }

  const BaseLimit: nat := 20

  function Min(a: nat, b: nat): nat {
    if a <= b then a else b
  }

  /** The events shown: all of them, or the first twenty */
  function Visible(sorted: seq<HistoryItem>, showAll: bool): (v: seq<HistoryItem>)
    ensures v <= sorted
    ensures |v| == if showAll then |sorted| else Min(BaseLimit, |sorted|)
  {
    if showAll then sorted else sorted[..Min(BaseLimit, |sorted|)]
  }

  /** The "show all / show less" button is offered when there are more than twenty events */
  predicate ShowsToggle(sorted: seq<HistoryItem>) {
    |sorted| > BaseLimit
  }

  /** The toggle is offered exactly when pressing it changes what is shown */
  lemma ToggleOfferedExactlyWhenItMatters(sorted: seq<HistoryItem>)
    ensures ShowsToggle(sorted) <==> Visible(sorted, true) != Visible(sorted, false)
  {
    if ShowsToggle(sorted) {
      assert |Visible(sorted, false)| < |Visible(sorted, true)|;
    }
  }

  datatype Toggle = NoToggle | ShowAllButton(total: nat) | ShowLessButton

  /** The four screens of the history view */
  datatype HistoryView =
    | Spinner
    | ErrorAlert(message: string)
    | EmptyNotice
    | EventList(badge: nat, toggle: Toggle, rows: seq<Row>)

  /** `data || []` */
  function Events(data: Option<seq<HistoryItem>>): seq<HistoryItem> {
    data.GetOr([])
  }

  function RowKey(row: Row): int {
    row.blockNumber.GetOr(0)
  }

  /** The rows of the first `n` sorted events, in order */
  function Rows(sorted: seq<HistoryItem>, n: nat): (rows: seq<Row>)
    requires n <= |sorted|
    ensures |rows| == n
    ensures forall i :: 0 <= i < n ==> rows[i] == RowOf(sorted[i]) && RowKey(rows[i]) == BlockKey(sorted[i])
  {
    seq(n, i requires 0 <= i < n => RowOf(sorted[i]))
  }

  /** The history hook's `error`: absent, a message string, or an `Error` object */
  datatype HookError = NoError | ErrorText(text: string) | ErrorObject(name: string, message: string)

  /** `if (error)` */
  predicate ErrorPresent(e: HookError) {
    match e
    case NoError => false
    case ErrorText(t) => t != ""
    case ErrorObject(_, _) => true
  }

  /**
   `String(error)`: a string is shown as is, and an `Error` object through
   `Error.prototype.toString`, its name and its message joined by `": "` when
   both are non-empty.
   */
  function ErrorString(e: HookError): (s: string)
    ensures e.NoError? ==> s == "undefined"
    ensures e.ErrorText? ==> s == e.text
    ensures e.ErrorObject? ==> e.name <= s && |e.message| <= |s| && s[|s| - |e.message|..] == e.message
    ensures e.ErrorObject? && e.name != "" && e.message != "" ==> |s| == |e.name| + 2 + |e.message|
    ensures e.ErrorObject? && e.name != "" && e.message != "" ==> s[|e.name|..|e.name| + 2] == ": "
    ensures e.ErrorObject? && e.name == "" ==> s == e.message
    ensures e.ErrorObject? && e.name != "" && e.message == "" ==> s == e.name
  {
    match e
    case NoError => "undefined"
    case ErrorText(t) => t
    case ErrorObject(name, message) =>
      if name == "" then message
      else if message == "" then name
      else name + ": " + message
  }

  /** The rendered view: loading, then error, then empty, then the list */
  function RenderHistory(data: Option<seq<HistoryItem>>, isLoading: bool, error: HookError, showAll: bool): (view: HistoryView)
    ensures isLoading ==> view == Spinner
    ensures !isLoading && ErrorPresent(error) ==> view == ErrorAlert(ErrorString(error))
    ensures !isLoading && !ErrorPresent(error) && Events(data) == [] ==> view == EmptyNotice
    ensures !isLoading && !ErrorPresent(error) && Events(data) != [] ==> view.EventList?
    ensures view.EventList? ==>
      && view.badge == |view.rows|
      && |view.rows| == (if showAll then |Events(data)| else Min(BaseLimit, |Events(data)|))
      && (forall i, j :: 0 <= i < j < |view.rows| ==> RowKey(view.rows[i]) >= RowKey(view.rows[j]))
      && (view.toggle == NoToggle <==> |Events(data)| <= BaseLimit)
      && (view.toggle == ShowLessButton <==> showAll && |Events(data)| > BaseLimit)
      && (view.toggle == ShowAllButton(|Events(data)|) <==> !showAll && |Events(data)| > BaseLimit)
      && (forall i :: 0 <= i < |view.rows| ==> view.rows[i] == RowOf(SortNewestFirst(Events(data))[i]))
  {
    var sorted := SortNewestFirst(Events(data));
    var visible := Visible(sorted, showAll);
    if isLoading then Spinner
    else if ErrorPresent(error) then ErrorAlert(ErrorString(error))
    else if |visible| == 0 then EmptyNotice
    else
      var rows := Rows(sorted, |visible|);
      var toggle :=
        if !ShowsToggle(sorted) then NoToggle
        else if showAll then ShowLessButton
        else ShowAllButton(|sorted|);
      EventList(|visible|, toggle, rows)
  }
}

=== FILE: hooks.dfy ===
/**
 What the components see of the contract-write hooks they call: the hook's
 status field, and how the promise returned by `sendAsync()` settles. The hooks
 themselves are not modelled; their outputs are inputs to the component
 functions.
 */
module Hooks {

  /** The status a write or multi-write hook reports */
  datatype Status = Idle | Pending | Success | Error

  /** How an awaited `sendAsync()` ends: it resolves, or it throws with a message */
  datatype SendOutcome = Resolved | Threw(message: string)
}

=== FILE: js_numbers.dfy ===
/**
 The string-to-integer conversions the components lean on: `BigInt(s)` and
 the integer literals `Number(s)` accepts, the prefix parser
 `parseInt(s)`, and `Number(v)` on the value types an event carries. `None`
 stands for NaN (for `Number` and `parseInt`) or for the thrown SyntaxError
 (for `BigInt`).
 */
module JsNumbers {
  import opened JsValues

  /** The white-space characters stripped around a numeric literal */
  predicate IsJsWhitespace(c: char) {
    || c == ' ' || c == '\t' || c == '\n' || c == '\r'
    || c == '\U{000B}' || c == '\U{000C}' || c == '\U{00A0}' || c == '\U{FEFF}'
    || c == '\U{2028}' || c == '\U{2029}'
  }

  /** Drops leading white space */
  function TrimStart(s: string): (r: string)
    ensures |r| <= |s| && r == s[|s| - |r|..]
    ensures forall i :: 0 <= i < |s| - |r| ==> IsJsWhitespace(s[i])
    ensures r == [] || !IsJsWhitespace(r[0])
  {
    if s != [] && IsJsWhitespace(s[0]) then TrimStart(s[1..]) else s
  }

  /** Drops trailing white space */
  function TrimEnd(s: string): (r: string)
    ensures |r| <= |s| && r == s[..|r|]
    ensures forall i :: |r| <= i < |s| ==> IsJsWhitespace(s[i])
    ensures r == [] || !IsJsWhitespace(r[|r| - 1])
  {
    if s != [] && IsJsWhitespace(s[|s| - 1]) then TrimEnd(s[..|s| - 1]) else s
  }

  function Trim(s: string): string {
    TrimEnd(TrimStart(s))
  }

  /** The value of a letter-or-digit character in radix-36 notation */
  function DigitValue(c: char): Option<nat> {
    if '0' <= c <= '9' then Some(c as int - '0' as int)
    else if 'a' <= c <= 'z' then Some(c as int - 'a' as int + 10)
    else if 'A' <= c <= 'Z' then Some(c as int - 'A' as int + 10)
    else None
  }

  predicate IsDigit(c: char, radix: nat) {
    DigitValue(c).Some? && DigitValue(c).value < radix
  }

  predicate AllDigits(s: string, radix: nat) {
    forall i :: 0 <= i < |s| ==> IsDigit(s[i], radix)
  }

  /** The number a digit string denotes, most significant digit first */
  function DigitsValue(s: string, radix: nat): nat
    requires AllDigits(s, radix)
  {
    if s == [] then 0
    else DigitsValue(s[..|s| - 1], radix) * radix + DigitValue(s[|s| - 1]).value
  }

  /** The radix the letter after a leading `0` selects: `0x…`, `0o…`, `0b…` */
  function PrefixRadix(c: char): Option<nat> {
    if c == 'x' || c == 'X' then Some(16)
    else if c == 'o' || c == 'O' then Some(8)
    else if c == 'b' || c == 'B' then Some(2)
    else None
  }

  /** A non-empty run of digits and nothing else */
  function UnsignedDigits(s: string, radix: nat): (r: Option<nat>)
    ensures r.Some? <==> s != [] && AllDigits(s, radix)
  {
    if s != [] && AllDigits(s, radix) then Some(DigitsValue(s, radix)) else None
  }

  /** A leading minus sign applied to a magnitude; NaN stays NaN */
  function Negated(v: Option<nat>): (r: Option<int>)
    ensures r.Some? <==> v.Some?
    ensures v.Some? ==> r.value + v.value == 0
  {
    if v.Some? then Some(-(v.value as int)) else None
  }

  /**
   `BigInt(s)`, which is also `Number(s)` on the integer literals it accepts: white
   space around the literal is ignored, a blank string is 0, a `0x`/`0o`/`0b`
   prefix selects the radix (and then no sign is allowed), and otherwise an
   optional sign precedes decimal digits.
   */
  function StringToInteger(s: string): Option<int> {
    var t := Trim(s);
    if t == [] then Some(0)
    else if |t| >= 2 && t[0] == '0' && PrefixRadix(t[1]).Some? then
      UnsignedDigits(t[2..], PrefixRadix(t[1]).value)
    else if t[0] == '-' then Negated(UnsignedDigits(t[1..], 10))
    else if t[0] == '+' then UnsignedDigits(t[1..], 10)
    else UnsignedDigits(t, 10)
  }

  /** `Number(v)`; an object converts through its string form `[object Object]` */
  function ToNumber(v: Value): Option<int> {
    match v
    case Undefined => None
    case Null => Some(0)
    case Bool(b) => Some(if b then 1 else 0)
    case Num(n) => Some(n)
    case Str(s) => StringToInteger(s)
    case Obj(_) => StringToInteger(ToJsString(v))
  }

  /** The longest prefix of `s` made of digits of the radix */
  function LeadingDigits(s: string, radix: nat): (d: string)
    ensures d <= s && AllDigits(d, radix)
    ensures |d| < |s| ==> !IsDigit(s[|d|], radix)
  {
    if s != [] && IsDigit(s[0], radix) then [s[0]] + LeadingDigits(s[1..], radix) else []
  }

  /** The value of the longest run of digits at the front of `s`; none gives NaN */
  function DigitRun(s: string, radix: nat): Option<nat> {
    var d := LeadingDigits(s, radix);
    if d == [] then None else Some(DigitsValue(d, radix))
  }

  /** `parseInt` after the sign: a `0x`/`0X` prefix selects hexadecimal, otherwise decimal */
  function UnsignedPrefix(u: string): Option<nat> {
    if |u| >= 2 && u[0] == '0' && (u[1] == 'x' || u[1] == 'X') then DigitRun(u[2..], 16)
    else DigitRun(u, 10)
  }

  /**
   `parseInt(s)` without a radix argument: leading white space and one sign
   are skipped, a `0x`/`0X` prefix selects hexadecimal, and the longest run of
   digits that follows is read; no digits at all gives NaN.
   */
  function ParseInt(s: string): Option<int> {
    var t := TrimStart(s);
    if t != [] && t[0] == '-' then Negated(UnsignedPrefix(t[1..]))
    else if t != [] && t[0] == '+' then UnsignedPrefix(t[1..])
    else UnsignedPrefix(t)
  }

  /**
   Text that cannot continue the decimal literal `lit` written before it:
   nothing, or a character that is not a decimal digit and, after a lone `0`,
   not the `x` of a `0x` prefix either
   */
  predicate EndsDecimal(lit: string, rest: string) {
    rest == [] || (!IsDigit(rest[0], 10) && (lit == "0" ==> rest[0] != 'x' && rest[0] != 'X'))
  }

  /** `n` zero characters */
  function Zeros(n: nat): (z: string)
    ensures |z| == n && forall i :: 0 <= i < n ==> z[i] == '0'
  {
    seq(n, _ => '0')
  }

  /** Reading back the digits `n.toString(radix)` writes gives `n` again */
  lemma {:induction false} NatToDigitsRoundTrip(n: nat, radix: nat)
    requires 2 <= radix <= 16
    ensures AllDigits(NatToDigits(n, radix), radix)
    ensures DigitsValue(NatToDigits(n, radix), radix) == n
    decreases n
  {
    if n < radix {
      SingleDigit(n, radix);
    } else {
      NatToDigitsRoundTrip(n / radix, radix);
      LastDigit(n, radix);
    }
  }

  /** The step of the round trip: the last digit written is `n % radix` */
  lemma LastDigit(n: nat, radix: nat)
    requires 2 <= radix <= 16 && n >= radix
    requires AllDigits(NatToDigits(n / radix, radix), radix)
    requires DigitsValue(NatToDigits(n / radix, radix), radix) == n / radix
    ensures AllDigits(NatToDigits(n, radix), radix)
    ensures DigitsValue(NatToDigits(n, radix), radix) == n
  {
    var q, r := n / radix, n % radix;
    var p := NatToDigits(q, radix);
    AppendDigit(p, r, radix);
    DivMod(n, radix);
    assert NatToDigits(n, radix) == p + [DigitChar(r)];
  }

  lemma SingleDigit(n: nat, radix: nat)
    requires 2 <= radix <= 16 && n < radix
    ensures AllDigits(NatToDigits(n, radix), radix)
    ensures DigitsValue(NatToDigits(n, radix), radix) == n
  {
    DigitCharValue(n, radix);
    var s := NatToDigits(n, radix);
    assert s == [DigitChar(n)];
    assert s[..0] == [];
  }

  lemma DivMod(n: nat, radix: nat)
    requires 2 <= radix
    ensures (n / radix) * radix + n % radix == n
  {
  }

  lemma DigitCharValue(d: nat, radix: nat)
    requires d < radix <= 16
    ensures IsDigit(DigitChar(d), radix) && DigitValue(DigitChar(d)).value == d
  {
  }

  /** Appending a digit multiplies the value by the radix and adds the digit */
  lemma AppendDigit(p: string, d: nat, radix: nat)
    requires 2 <= radix <= 16 && d < radix && AllDigits(p, radix)
    ensures AllDigits(p + [DigitChar(d)], radix)
    ensures DigitsValue(p + [DigitChar(d)], radix) == DigitsValue(p, radix) * radix + d
  {
    var s := p + [DigitChar(d)];
    assert AllDigits(s, radix) by {
      forall i | 0 <= i < |s| ensures IsDigit(s[i], radix) {
        if i < |p| { assert s[i] == p[i]; }
      }
    }
    assert s[..|s| - 1] == p;
  }

  /** Leading zeros do not change the value of a digit string */
  lemma {:induction false} LeadingZerosIgnored(k: nat, d: string, radix: nat)
    requires 2 <= radix && AllDigits(d, radix)
    ensures AllDigits(Zeros(k) + d, radix)
    ensures DigitsValue(Zeros(k) + d, radix) == DigitsValue(d, radix)
    decreases |d|
  {
    var s := Zeros(k) + d;
    assert AllDigits(s, radix) by {
      forall i | 0 <= i < |s| ensures IsDigit(s[i], radix) {
        if i >= k { assert s[i] == d[i - k]; }
      }
    }
    if d == [] {
      ZerosAreZero(k, radix);
      assert s == Zeros(k);
    } else {
      var p := d[..|d| - 1];
      LeadingZerosIgnored(k, p, radix);
      assert s[..|s| - 1] == Zeros(k) + p;
    }
  }

  lemma {:induction false} ZerosAreZero(k: nat, radix: nat)
    requires 2 <= radix
    ensures AllDigits(Zeros(k), radix)
    ensures DigitsValue(Zeros(k), radix) == 0
    decreases k
  {
    if k > 0 {
      ZerosAreZero(k - 1, radix);
      assert Zeros(k)[..k - 1] == Zeros(k - 1);
    }
  }

  /** A string with no white space at either end is its own trimmed form */
  lemma TrimUnpadded(s: string)
    requires s != [] && !IsJsWhitespace(s[0]) && !IsJsWhitespace(s[|s| - 1])
    ensures Trim(s) == s
  {
  }

  /** `BigInt` reads a run of decimal digits, with or without a minus sign */
  lemma DecimalDigitsParse(d: string)
    requires d != [] && AllDigits(d, 10)
    ensures StringToInteger(d) == Some(DigitsValue(d, 10))
    ensures StringToInteger("-" + d) == Some(-(DigitsValue(d, 10) as int))
  {
    UnsignedDecimalParse(d);
    NegativeDecimalParse(d);
  }

  lemma UnsignedDecimalParse(d: string)
    requires d != [] && AllDigits(d, 10)
    ensures StringToInteger(d) == Some(DigitsValue(d, 10))
  {
    DigitsRead(d, 10);
    UnsignedDecimalShape(d);
  }

  lemma NegativeDecimalParse(d: string)
    requires d != [] && AllDigits(d, 10)
    ensures StringToInteger("-" + d) == Some(-(DigitsValue(d, 10) as int))
  {
    NegatedDigits(d);
    NegativeDecimalShape(d);
  }

  lemma NegatedDigits(d: string)
    requires d != [] && AllDigits(d, 10)
    ensures Negated(UnsignedDigits(d, 10)) == Some(-(DigitsValue(d, 10) as int))
  {
  }

  /*
   The lemmas below keep the shape of a literal apart from the value of its
   digits: a proof that has both the parser and the digit arithmetic in view
   at once is needlessly expensive.
   */

  lemma DigitsRead(d: string, radix: nat)
    requires d != [] && AllDigits(d, radix)
    ensures UnsignedDigits(d, radix) == Some(DigitsValue(d, radix))
  {
  }

  lemma UnsignedDecimalShape(d: string)
    requires d != [] && AllDigits(d, 10)
    ensures StringToInteger(d) == UnsignedDigits(d, 10)
  {
    assert IsDigit(d[0], 10) && IsDigit(d[|d| - 1], 10);
    TrimUnpadded(d);
    assert |d| >= 2 ==> IsDigit(d[1], 10);
  }

  lemma NegativeDecimalShape(d: string)
    requires d != [] && AllDigits(d, 10)
    ensures StringToInteger("-" + d) == Negated(UnsignedDigits(d, 10))
  {
    var m := "-" + d;
    assert m[1..] == d;
    assert m[|m| - 1] == d[|d| - 1] && IsDigit(d[|d| - 1], 10);
    TrimUnpadded(m);
    BigIntNegative(m);
  }

  /** `BigInt` of a trimmed literal that starts with a minus sign negates the decimal digits after it */
  lemma BigIntNegative(m: string)
    requires m != [] && m[0] == '-' && Trim(m) == m
    ensures StringToInteger(m) == Negated(UnsignedDigits(m[1..], 10))
  {
  }

  /** `BigInt` of `0x` followed by hexadecimal digits reads those digits */
  lemma HexShape(d: string)
    requires d != [] && AllDigits(d, 16)
    ensures StringToInteger("0x" + d) == UnsignedDigits(d, 16)
  {
    var t := "0x" + d;
    assert t[|t| - 1] == d[|d| - 1];
    assert IsDigit(t[|t| - 1], 16);
    TrimUnpadded(t);
    assert t[2..] == d;
  }

  /** `BigInt(n.toString()) == n` for every integer */
  lemma StringToIntegerDecimal(n: int)
    ensures StringToInteger(IntToDecimal(n)) == Some(n)
  {
    var m: nat := if n < 0 then -n else n;
    NatToDigitsRoundTrip(m, 10);
    DecimalDigitsParse(NatToDigits(m, 10));
  }

  /** `BigInt("0x" + zeros + hex digits of n) == n`: zero-padded hexadecimal addresses read back exactly */
  lemma StringToIntegerPaddedHex(k: nat, n: nat)
    ensures StringToInteger("0x" + Zeros(k) + NatToDigits(n, 16)) == Some(n)
  {
    var z := Zeros(k) + NatToDigits(n, 16);
    PaddedDigitsRead(k, n);
    HexShape(z);
    Concat3("0x", Zeros(k), NatToDigits(n, 16));
  }

  lemma Concat3(a: string, b: string, c: string)
    ensures a + b + c == a + (b + c)
  {
  }

  lemma PaddedDigitsRead(k: nat, n: nat)
    ensures var z := Zeros(k) + NatToDigits(n, 16);
      z != [] && AllDigits(z, 16) && UnsignedDigits(z, 16) == Some(n)
  {
    var d := NatToDigits(n, 16);
    NatToDigitsRoundTrip(n, 16);
    LeadingZerosIgnored(k, d, 16);
  }

  lemma {:induction false} LeadingDigitsOfDigitRun(d: string, rest: string, radix: nat)
    requires AllDigits(d, radix)
    requires rest == [] || !IsDigit(rest[0], radix)
    ensures LeadingDigits(d + rest, radix) == d
    decreases |d|
  {
    if d != [] {
      LeadingDigitsOfDigitRun(d[1..], rest, radix);
      assert (d + rest)[1..] == d[1..] + rest;
    } else {
      assert d + rest == rest;
    }
  }

  /** After the sign, `parseInt` reads a run of decimal digits and stops where the digits stop */
  lemma UnsignedPrefixDigits(d: string, rest: string)
    requires d != [] && AllDigits(d, 10)
    requires EndsDecimal(d, rest)
    ensures UnsignedPrefix(d + rest) == Some(DigitsValue(d, 10))
  {
    DecimalStart(d, rest);
    DigitRunOf(d, rest, 10);
  }

  lemma DigitRunOf(d: string, rest: string, radix: nat)
    requires d != [] && AllDigits(d, radix)
    requires rest == [] || !IsDigit(rest[0], radix)
    ensures DigitRun(d + rest, radix) == Some(DigitsValue(d, radix))
  {
    LeadingDigitsOfDigitRun(d, rest, radix);
  }

  /** A run of decimal digits selects decimal unless it is a lone `0` followed by `x` or `X` */
  lemma DecimalStart(d: string, rest: string)
    requires d != [] && AllDigits(d, 10)
    requires EndsDecimal(d, rest)
    ensures UnsignedPrefix(d + rest) == DigitRun(d + rest, 10)
  {
    var s := d + rest;
    assert s[0] == d[0] && IsDigit(d[0], 10);
    assert |s| >= 2 && s[0] == '0' ==> s[1] != 'x' && s[1] != 'X' by {
      if |s| >= 2 && |d| >= 2 { assert s[1] == d[1] && IsDigit(d[1], 10); }
      if |s| >= 2 && |d| < 2 && s[0] == '0' { assert d == "0" && s[1] == rest[0]; }
    }
  }

  /** `parseInt` on a run of decimal digits */
  lemma ParseIntDigits(d: string, rest: string)
    requires d != [] && AllDigits(d, 10)
    requires EndsDecimal(d, rest)
    ensures ParseInt(d + rest) == Some(DigitsValue(d, 10))
  {
    UnsignedPrefixDigits(d, rest);
    var s := d + rest;
    assert s[0] == d[0] && IsDigit(d[0], 10);
    UnsignedStart(s);
  }

  /** `parseInt` on a minus sign and a run of decimal digits */
  lemma ParseIntNegativeDigits(d: string, rest: string)
    requires d != [] && AllDigits(d, 10)
    requires EndsDecimal(d, rest)
    ensures ParseInt("-" + d + rest) == Some(-(DigitsValue(d, 10) as int))
  {
    NegatedPrefix(d, rest);
    NegativeShape(d, rest);
  }

  lemma NegatedPrefix(d: string, rest: string)
    requires d != [] && AllDigits(d, 10)
    requires EndsDecimal(d, rest)
    ensures Negated(UnsignedPrefix(d + rest)) == Some(-(DigitsValue(d, 10) as int))
  {
    UnsignedPrefixDigits(d, rest);
    NegatedSome(UnsignedPrefix(d + rest), DigitsValue(d, 10));
  }

  lemma NegatedSome(u: Option<nat>, v: nat)
    requires u == Some(v)
    ensures Negated(u) == Some(-(v as int))
  {
  }

  lemma NegativeShape(d: string, rest: string)
    ensures ParseInt("-" + d + rest) == Negated(UnsignedPrefix(d + rest))
  {
    var m := "-" + d + rest;
    assert m[1..] == d + rest;
    NegativeStart(m);
  }

  /** `parseInt` of text that starts with neither white space, a sign nor a digit is NaN */
  lemma NoDigitNoNumber(s: string)
    requires s != []
    ensures !IsJsWhitespace(s[0]) && !IsDigit(s[0], 10) && s[0] != '-' && s[0] != '+' ==> ParseInt(s).None?
  {
    if !IsJsWhitespace(s[0]) && !IsDigit(s[0], 10) && s[0] != '-' && s[0] != '+' {
      assert TrimStart(s) == s;
      assert LeadingDigits(s, 10) == [];
    }
  }

  lemma UnsignedStart(s: string)
    requires s != [] && IsDigit(s[0], 10)
    ensures ParseInt(s) == UnsignedPrefix(s)
  {
    assert TrimStart(s) == s;
  }

  lemma NegativeStart(m: string)
    requires m != [] && m[0] == '-'
    ensures ParseInt(m) == Negated(UnsignedPrefix(m[1..]))
  {
    assert TrimStart(m) == m;
  }

  /**
   `parseInt` reads the decimal form of `n` back as `n`, whatever follows it,
   as long as what follows neither continues the digits nor turns a lone `0`
   into a `0x` prefix.
   */
  lemma ParseIntDecimalPrefix(n: int, rest: string)
    requires EndsDecimal(IntToDecimal(n), rest)
    ensures ParseInt(IntToDecimal(n) + rest) == Some(n)
  {
    var m: nat := if n < 0 then -n else n;
    NatToDigitsRoundTrip(m, 10);
    if n < 0 {
      assert NatToDigits(m, 10) != "0" by { assert DigitsValue("0", 10) == 0; }
      ParseIntNegativeDigits(NatToDigits(m, 10), rest);
    } else {
      ParseIntDigits(NatToDigits(m, 10), rest);
    }
  }
}

=== FILE: js_values.dfy ===
/**
 The small slice of JavaScript value semantics the counter components rely on:
 optional hook data, the dynamically typed values a contract event or a read
 hook hands back, truthiness (`!v`), `String(v)` and the rendering of integers
 as digit strings.
 */
module JsValues {

  /** Hook data that may be absent (`undefined`) */
  datatype Option<+T> = None | Some(value: T) {

    /** `x ?? default` for a value that is either absent or present */
    function GetOr(default: T): T {
      match this
      case Some(v) => v
      case None => default
    }
  }

  /**
   A JavaScript value. Numbers and BigInts are both integers here; an object is
   the map from its own enumerable keys to their values.
   */
  datatype Value =
    | Undefined
    | Null
    | Bool(b: bool)
    | Num(n: int)
    | Str(s: string)
    | Obj(fields: map<string, Value>)

  /** JavaScript truthiness: `!v` holds exactly when `!Truthy(v)` */
  predicate Truthy(v: Value) {
    match v
    case Undefined => false
    case Null => false
    case Bool(b) => b
    case Num(n) => n != 0
    case Str(s) => s != ""
    case Obj(_) => true
  }

  /** Truthiness of an optional string such as a wallet or contract address */
  predicate PresentText(s: Option<string>) {
    s.Some? && s.value != ""
  }

  /** The lower-case digit character for a digit value below 16 */
  function DigitChar(d: nat): (c: char)
    requires d < 16
    ensures '0' <= c <= '9' || 'a' <= c <= 'f'
  {
    if d < 10 then ('0' as int + d) as char else ('a' as int + d - 10) as char
  }

  /** `n.toString(radix)` for a non-negative integer: most significant digit first, no leading zeros */
  function NatToDigits(n: nat, radix: nat): (s: string)
    requires 2 <= radix <= 16
    ensures |s| >= 1
    ensures forall i :: 0 <= i < |s| ==> '0' <= s[i] <= '9' || 'a' <= s[i] <= 'f'
    decreases n
  {
    if n < radix then [DigitChar(n)]
    else NatToDigits(n / radix, radix) + [DigitChar(n % radix)]
  }

  /** `n.toString()` for an integer (a BigInt, or a Number below 10^21) */
  function IntToDecimal(n: int): (s: string)
    ensures |s| >= 1
  {
    if n < 0 then "-" + NatToDigits(-n, 10) else NatToDigits(n, 10)
  }

  /** `String(v)`; an object without its own `toString` renders as `[object Object]` */
  function ToJsString(v: Value): string {
    match v
    case Undefined => "undefined"
    case Null => "null"
    case Bool(b) => if b then "true" else "false"
    case Num(n) => IntToDecimal(n)
    case Str(s) => s
    case Obj(_) => "[object Object]"
  }
}
